=== FILE: README.md ===
# Project Nexus dashboard: a Dafny model of its note-handling logic

Project Nexus is a browser dashboard for notes shared by two contributors.
After a key-based login it fetches the list of notes and shows them in three
ways: daily per-contributor counters, a "recent notes" column, and a file
explorer. The explorer is a folder tree built from each note's `filepath`.
This project models the pure logic in `script.js` behind those views and
proves what it guarantees:

- `Paths`: splitting a `filepath` on `/` or `\` into folder segments and a file name.
- `FileTree`: building the folder tree from the flat note list (`buildFileTree`).
- `Explorer`: listing each level of the tree, folders first and then files, each
  sorted, nested as deep as the tree goes (`createFileTreeHtml`). Also the
  explorer's empty state (`displayFileExplorer`).
- `Stats`: today's per-contributor counters (`updateStats`).
- `Recent`: the window of the first 50 notes (`displayRecentNotes`).
- `Session`: the login gate (`checkLoginStatus`, `handleLogin`).
- `AsWritten`: the tree builder as literally written, where folder levels are
  plain JavaScript objects (see Findings).
- `Text`, `Notes`, `Wrappers`: the lexicographic order, lower-casing and
  `slice`, the note record, and `Option`.

The script stores a folder's files under a reserved `_files` property of the
same object that holds its sub-folders. The model gives a folder two separate
fields, `folders: map<string, Tree>` and `files: seq<Note>`, so no folder name
can collide with the file list. In the script a folder literally named
`_files` has no well-defined meaning. If the root already holds files, the walk
descends into the files array, and the note is stored where nothing lists it.
If the folder comes first, a plain object stands where the file array
belongs. Both a later root-level `push` and the listing's `sort` then throw,
and the dashboard shows its load error instead of the notes.

Inputs the script reads from the browser are parameters here. "Today" is the
date string `new Date().toISOString().slice(0, 10)`, and `now` is
`new Date().getTime()` in integer milliseconds. The stored session is an
`Option` of the parsed record.

## Model

| member | source | states |
|---|---|---|
| Paths.JoinSplit | script.js:157 | Splitting a path on `/` or `\` and rejoining with `/` gives the path back with every `\` written as `/`: no character is lost or invented |
| Paths.SplitJoin | script.js:157 | Splitting the `/`-join of separator-free segments yields exactly those segments, empty segments included |
| Paths.SplitNormalize | script.js:157 | `/` and `\` separate alike: replacing one by the other changes neither the segments nor the folder path |
| Paths.NoSepHasNoDirs | script.js:160-165 | A path with no separator names no folder, and its only segment is the whole path |
| Paths.DirsOfJoin | script.js:160-171 | The folders of `d1/…/dk/name` are exactly `d1 … dk`; the last segment is never a folder |
| FileTree.Insert | script.js:160-171 | Storing one note: with no folder segments it is appended to the current folder's files; otherwise the first segment's folder exists afterwards, and every other folder and the files stay as they were |
| FileTree.InsertFiles | script.js:160-171 | Inserting a note appends it to the files of the folder its segments lead to, and to no other folder's files |
| FileTree.InsertFolders | script.js:166-171 | Inserting a note creates exactly the missing folders along its segments and removes none |
| FileTree.InsertContents | script.js:161-165 | Inserting a note adds exactly that one note to the tree |
| FileTree.BuildFiles | script.js:154-175 | The files of the folder at any path are exactly the input notes whose folder segments equal that path, in input order |
| FileTree.BuildFolders | script.js:154-175 | A folder exists at a path iff the path is the root or a prefix of some note's folder segments |
| FileTree.BuildRootFile | script.js:160-165 | A note whose path has no separator is stored in the root's files |
| FileTree.BuildContents | script.js:154-175 | The tree holds every input note exactly as often as the input does, so the total number of stored notes equals the input length |
| Explorer.SortedNames | script.js:182 | The folder names are listed once each, in strictly ascending order |
| Explorer.InsertByName | script.js:183 | Inserting a note into a list sorted by file name keeps it sorted and adds exactly that note |
| Explorer.SortByFilename | script.js:183 | The files come out ordered by file name and are a permutation of the folder's files |
| Explorer.RenderListing | script.js:182-204 | Each level lists every sub-folder once, by ascending name, then exactly that folder's own notes, by file name; no note comes before a folder; each folder entry holds the listing of the folder it names, so the same order holds at every depth |
| Explorer.RenderContents | script.js:185-204 | The nested listing of a folder shows, at any depth, exactly the notes stored under it, each as often as stored |
| Explorer.ShowExplorer | script.js:134-143 | The "no files" placeholder appears iff there are no notes; otherwise the explorer shows every fetched note exactly once |
| Stats.UpdateStats | script.js:104-115 | The rohan and malhar counters equal the number of notes whose timestamp's first 10 characters equal today and whose contributor lower-cases to that name; together they never exceed today's notes |
| Stats.CountsWithinToday | script.js:108-113 | No note is counted for both contributors and only today's notes count, so rohan + malhar ≤ today's notes ≤ all notes |
| Recent.RecentNotes | script.js:120 | The window is the input's prefix of length min(50, number of notes), in input order |
| Recent.ShowRecent | script.js:118-125 | The "no notes shared yet" placeholder appears iff the input is empty; otherwise 1 to 50 notes, a prefix of the input, and all of it when it has fewer than 50 |
| Recent.RecentIgnoresTail | script.js:120 | Once 50 notes are present, later notes never reach the window |
| Session.CheckLoginStatus | script.js:34-47 | A stored session with the shared key and less than 180 days old switches to the dashboard; in every other case the screen is left unchanged |
| Session.HandleLogin | script.js:49-66 | Only the shared key is accepted, and an accepted login stores the key with the current time |
| Session.LoginThenReload | script.js:4 | After a successful login, a reload shows the dashboard iff fewer than 15 552 000 000 ms (180 days) have passed |
| Session.WrongKeyNeverOpens | script.js:44 | A stored session with any other key never opens the dashboard |
| AsWritten.InsertAsWritten | script.js:160-171 | As written, a note is stored in its folder iff no folder segment is an inherited `Object.prototype` name, `__proto__` or `_files`, and then exactly as the corrected builder stores it. When the first such segment is an inherited name, the walk leaves the tree: if the only segment after it is `name` or `length`, the walk throws; if no later segment is one of `name`, `length`, `prototype`, `caller`, `arguments`, `__proto__` or `_files`, the note is lost and the tree holds the same notes as before |
| AsWritten.AsWrittenContents | script.js:154-175 | As written, a build that stores every note holds exactly the input notes; a build that hid a note holds strictly fewer |
| AsWritten.AgreesWhenOrdinary | script.js:154-175 | When no note's folders use a special name, the as-written builder produces exactly the corrected tree |
| AsWritten.ConstructorFolderHidesNote | script.js:167-170 | A note filed as `constructor/a.md` is shown nowhere by the as-written builder, and exactly once by the corrected one |
| AsWritten.ConstructorNameThrows | script.js:161-170 | A note filed as `constructor/name/a.md` makes the as-written build throw, while the corrected builder stores it |

## Left out

- DOM construction, event wiring and the folder collapse toggle (script.js:146-151, 185-204) are UI. The model returns entries instead of elements.
- `fetch`, `localStorage`, `navigator.clipboard`, `confirm`, `alert` and `setTimeout` are browser I/O. This covers `fetchAndDisplayNotes` with its error placeholder, `showPreview`, `copyNoteContent` and `deleteNote`.
- Markdown conversion is done by the showdown library, a foreign dependency.
- The clock is not modelled. "Today" and `now` are parameters, and the time shown on a note (`toLocaleTimeString`) is not modelled.
- Parsing the stored session as JSON is not modelled. A stored empty string counts as no session in the script, and a blob that is not JSON makes `JSON.parse` throw. The model starts from the parsed record.
- Explorer.SortByFilename: orders by the plain lexicographic order on characters. JavaScript's `localeCompare` is locale-dependent and may order some names differently.
- Explorer.SortedNames: uses the same order on Unicode scalar values. JavaScript's default `sort()` compares UTF-16 code units, which differs only for characters outside the Basic Multilingual Plane.
- Explorer.SortByFilename: stability is not stated. JavaScript's sort is stable, and so is the insertion sort here, but no lemma says so.
- Stats.UpdateStats: `toLowerCase` is modelled on ASCII letters only. For the targets `rohan` and `malhar`, no other character lower-cases into them.
- JavaScript numbers are doubles. The model uses unbounded integers, which agree with doubles for millisecond timestamps.
- `createFileTreeHtml` sorts each `_files` array in place. The model does not mutate the tree, which is rebuilt on every fetch anyway.
- A folder literally named `_files` and the segment `__proto__` are not modelled. The first is described above. The second makes the script attach a `_files` array to `Object.prototype`, and `constructor/prototype/…` reaches the same state. Folders that already own a `_files` array keep it. Every other folder, including those created later, inherits the shared array, so notes filed into any of them go to that one array and each of them lists all of its notes.
- AsWritten.InsertAsWritten: gives `Unfollowed` instead of a tree when the first special segment is `__proto__` or `_files`, or when a walk that left the tree through an inherited name meets `prototype`, `caller`, `arguments`, `__proto__` or `_files`, or meets `name` or `length` anywhere except as the only segment after the inherited name. When every earlier segment names a function, a last `name` or `length` still makes the script throw, as for `constructor/toString/name/a.md`, but the model gives `Unfollowed` there. A primitive followed by more segments lets the script keep walking: it may read a method of the string or number, such as `toString`, and lose the note there without throwing.
- AsWritten.BuildAsWritten: assumes `Object.prototype`, `Function.prototype`, `String.prototype` and `Number.prototype` carry no `_files` when a build starts. An earlier build on the same page can leave one there, through a note such as `__proto__/x.md` or `constructor/name/__proto__/x.md` that the model gives `Unfollowed`. A later `constructor/name/a.md` would then be pushed onto that array instead of throwing. A `_files` array that an earlier build left on an inherited function also survives, but nothing ever lists it.
- Every note field is a string in the model. In the script a missing or `null` `timestamp` (script.js:109), `shared_by` on a note dated today (script.js:109-110) or `filepath` (script.js:157) makes that line throw, and the dashboard shows its load error (script.js:97-100) instead of the notes. A missing or `null` `filename` throws only when that note is the left operand of the comparison at script.js:183. Otherwise the note is sorted under the name `null` or `undefined`, or not compared at all when it is alone in its folder.
- Navigating a path stack, breadcrumbs and category filtering are not implemented in `script.js`, so nothing models them.
- The daily counters compare the UTC date prefix of the timestamp, as the code does (`toISOString().slice(0, 10)`), and not the viewer's local calendar date.

## Findings

| source | as written | input that shows it | evidently intended | confidence | as-written member | corrected member |
|---|---|---|---|---|---|---|
| script.js:167-170 | `if (!currentLevel[part])` also finds members every object inherits from `Object.prototype`. For such a segment no folder is created, and the walk continues inside a shared function object that `Object.keys` never lists. | one note with `filepath` `constructor/a.md` | the note is listed under a folder `constructor`, like any other folder name | high; not executed | AsWritten.ConstructorFolderHidesNote | FileTree.BuildContents |
| script.js:161-170 | After an inherited name, the walk reads the next segment from that function object. `name` and `length` hold a string and a number. When one of them is the last folder segment, the assignment of `_files` to that primitive is silently ignored, and the following `_files.push` on `undefined` throws. | one note with `filepath` `constructor/name/a.md` | the note is listed under `constructor/name`, and the other notes still load | high; not executed | AsWritten.ConstructorNameThrows | FileTree.BuildContents |

The corrected builder keeps folders in their own map, so every segment is an
ordinary folder name. `FileTree.BuildContents` and `Explorer.ShowExplorer`
prove that every note is stored and shown.

=== FILE: aswritten.dfy ===
/**
 * The folder tree as the script really builds it, where a folder level is a
 * plain JavaScript object. The test `if (!currentLevel[part])` also sees the
 * properties every object inherits from `Object.prototype`: for a segment
 * such as `constructor` the lookup yields an inherited function, no folder is
 * created, and the walk continues inside that function object, which
 * `Object.keys` never lists. Depending on the segments that follow, the note
 * is then stored where the explorer never looks, or the walk reaches a
 * primitive and `push` throws, which aborts the whole build.
 */
module AsWritten {
  import opened Notes
  import opened FileTree
  import Explorer
  import Paths

  /** Names of inherited `Object.prototype` methods, each a truthy function on every plain object. */
  const InheritedNames: set<string> := {
    "constructor", "toString", "toLocaleString", "valueOf",
    "hasOwnProperty", "isPrototypeOf", "propertyIsEnumerable",
    "__defineGetter__", "__defineSetter__", "__lookupGetter__", "__lookupSetter__"
  }

  /**
   * Segments whose effect on a plain object the model does not follow:
   * `__proto__` reaches `Object.prototype` itself, and `_files` clashes with
   * the file list stored on the same object.
   */
  const UnfollowedNames: set<string> := {"__proto__", "_files"}

  /** The segments with which the script's walk stops behaving like a folder lookup. */
  const SpecialNames: set<string> := InheritedNames + UnfollowedNames

  /** Own properties of every function object whose values are primitives (a string and a number). */
  const PrimitiveNames: set<string> := {"name", "length"}

  /** Properties of a function object whose effect the model does not follow. */
  const OpaqueNames: set<string> := {"prototype", "caller", "arguments", "__proto__", "_files"}

  /** What `buildFileTree` does with one note. */
  datatype Outcome =
    | Stored(tree: Tree)   // the note went into the folder its segments name
    | Hidden(tree: Tree)   // the walk left the tree; the note sits where nothing lists it
    | Throws               // `push` or a property lookup throws, so the whole build aborts
    | Unfollowed           // the walk reaches an object the model does not represent

  /** Where a walk ends that left the tree through an inherited function. */
  datatype Escape = Lost | Crash | Untracked

  /** No segment is special: the as-written walk is an ordinary folder lookup. */
  predicate Ordinary(dirs: seq<string>) {
    forall i :: 0 <= i < |dirs| ==> dirs[i] !in SpecialNames
  }

  /** The position of the first special segment, or `|dirs|` when there is none. */
  function FirstSpecial(dirs: seq<string>): (k: nat)
    ensures k <= |dirs|
    ensures forall i :: 0 <= i < k ==> dirs[i] !in SpecialNames
    ensures k < |dirs| ==> dirs[k] in SpecialNames
    decreases |dirs|
  {
    if dirs == [] || dirs[0] in SpecialNames then 0 else 1 + FirstSpecial(dirs[1..])
  }

  /**
   * The fate of the walk inside an inherited function, given the segments
   * after the inherited name. When the last folder segment is a
   * primitive-valued property, the script assigns `_files` to a string or
   * number: the assignment is ignored and the `push` that follows throws.
   * Segments that avoid every primitive and opaque name only ever reach
   * further functions or fresh plain objects hung on them, none of them
   * listed. A primitive followed by more segments is not followed.
   */
  function EscapeOf(segs: seq<string>): (e: Escape)
    ensures e == Crash <==> |segs| == 1 && segs[0] in PrimitiveNames
    ensures e == Lost <==> forall i :: 0 <= i < |segs| ==> segs[i] !in PrimitiveNames + OpaqueNames
  {
    if |segs| == 1 && segs[0] in PrimitiveNames then Crash
    else if forall i :: 0 <= i < |segs| ==> segs[i] !in PrimitiveNames + OpaqueNames then Lost
    else Untracked
  }

  /**
   * `buildFileTree`'s inner walk for one note, as written. Folders before the
   * first special segment are created as usual; an inherited name leaves the
   * tree, and `__proto__` or `_files` lead where the model does not follow.
   */
  function InsertAsWritten(t: Tree, dirs: seq<string>, n: Note): (r: Outcome)
    ensures r.Stored? <==> Ordinary(dirs)
    ensures r.Stored? ==> r.tree == Insert(t, dirs, n)
    ensures var k := FirstSpecial(dirs);
      r.Hidden? <==> k < |dirs| && dirs[k] in InheritedNames && EscapeOf(dirs[k + 1..]) == Lost
    ensures var k := FirstSpecial(dirs);
      r.Throws? <==> k < |dirs| && dirs[k] in InheritedNames && EscapeOf(dirs[k + 1..]) == Crash
    ensures r.Hidden? ==> Contents(r.tree) == Contents(t)
    decreases |dirs|
  {
    if dirs == [] then Stored(Tree(t.folders, t.files + [n]))
    else if dirs[0] in UnfollowedNames then Unfollowed
    else if dirs[0] in InheritedNames then
      match EscapeOf(dirs[1..])
      case Lost => Hidden(t)
      case Crash => Throws
      case Untracked => Unfollowed
    else
      var child := if dirs[0] in t.folders then t.folders[dirs[0]] else Empty;
      var c := InsertAsWritten(child, dirs[1..], n);
      var k := FirstSpecial(dirs[1..]);
      assert FirstSpecial(dirs) == k + 1;
      assert k < |dirs[1..]| ==> dirs[k + 1] == dirs[1..][k] && dirs[k + 2..] == dirs[1..][k + 1..];
      assert Ordinary(dirs) <==> Ordinary(dirs[1..]) by {
        if Ordinary(dirs[1..]) {
          assert forall i :: 1 <= i < |dirs| ==> dirs[i] == dirs[1..][i - 1];
        }
      }
      assert c.Hidden? ==> Contents(Tree(t.folders[dirs[0] := c.tree], t.files)) == Contents(t) by {
        if c.Hidden? {
          ReplaceContents(t, dirs[0], c.tree);
          SplitContents(t, dirs[0]);
          if dirs[0] !in t.folders {
            assert Contents(Empty) == multiset{};
          }
        }
      }
      match c
      case Stored(u) => Stored(Tree(t.folders[dirs[0] := u], t.files))
      case Hidden(u) => Hidden(Tree(t.folders[dirs[0] := u], t.files))
      case Throws => Throws
      case Unfollowed => Unfollowed
  }

  /**
   * `buildFileTree(notes)` as written. The first note that throws or leaves
   * the model decides the outcome; a hidden note turns the rest of the build
   * into a `Hidden` tree.
   */
  function BuildAsWritten(notes: seq<Note>): Outcome
    decreases |notes|
  {
    if notes == [] then Stored(Empty)
    else
      var k := |notes| - 1;
      var prev := BuildAsWritten(notes[..k]);
      if prev.Throws? || prev.Unfollowed? then prev
      else
        var next := InsertAsWritten(prev.tree, Paths.Dirs(notes[k].filepath), notes[k]);
        if prev.Hidden? && next.Stored? then Hidden(next.tree) else next
  }

  /** When no note's folders use a special name, the script's builder and the model's agree. */
  lemma {:induction false} AgreesWhenOrdinary(notes: seq<Note>)
    requires forall i :: 0 <= i < |notes| ==> Ordinary(Paths.Dirs(notes[i].filepath))
    ensures BuildAsWritten(notes) == Stored(Build(notes))
    decreases |notes|
  {
    if notes != [] {
      var k := |notes| - 1;
      var prefix := notes[..k];
      assert forall i :: 0 <= i < |prefix| ==> prefix[i] == notes[i];
      AgreesWhenOrdinary(prefix);
      var dirs := Paths.Dirs(notes[k].filepath);
      assert Ordinary(dirs);
      assert InsertAsWritten(Build(prefix), dirs, notes[k]) == Stored(Insert(Build(prefix), dirs, notes[k]));
    }
  }

  /**
   * As written, a finished build holds every note exactly when no note was
   * hidden; a hidden note leaves the tree strictly short of the input.
   */
  lemma {:induction false} AsWrittenContents(notes: seq<Note>)
    ensures BuildAsWritten(notes).Stored? ==> Contents(BuildAsWritten(notes).tree) == multiset(notes)
    ensures BuildAsWritten(notes).Hidden? ==> Contents(BuildAsWritten(notes).tree) < multiset(notes)
    decreases |notes|
  {
    if notes != [] {
      var k := |notes| - 1;
      var prev := BuildAsWritten(notes[..k]);
      AsWrittenContents(notes[..k]);
      MultisetSnoc(notes);
      if prev.Stored? || prev.Hidden? {
        var dirs := Paths.Dirs(notes[k].filepath);
        var next := InsertAsWritten(prev.tree, dirs, notes[k]);
        if next.Stored? {
          InsertContents(prev.tree, dirs, notes[k]);
        }
      }
    }
  }

  /** The example note: filed as `a.md` inside a folder named `constructor`. */
  function ConstructorNote(): Note {
    Note("1", "a.md", "constructor/a.md", "Rohan", "2024-05-01T10:00:00Z")
  }

  /** A note filed as `a.md` inside `constructor/name`. */
  function NameNote(): Note {
    Note("2", "a.md", "constructor/name/a.md", "Malhar", "2024-05-01T10:00:00Z")
  }

  /** A one-note build is the walk of that note from the empty tree. */
  lemma SingleNote(n: Note)
    ensures BuildAsWritten([n]) == InsertAsWritten(Empty, Paths.Dirs(n.filepath), n)
  {
    assert [n][..0] == [];
  }

  lemma ConstructorNoteDirs()
    ensures Paths.Dirs(ConstructorNote().filepath) == ["constructor"]
  {
    assert Paths.Join(["constructor"] + ["a.md"]) == ConstructorNote().filepath;
    Paths.DirsOfJoin(["constructor"], "a.md");
  }

  lemma ConstructorTrees()
    ensures BuildAsWritten([ConstructorNote()]) == Hidden(Empty)
    ensures Contents(Build([ConstructorNote()])) == multiset{ConstructorNote()}
  {
    var n := ConstructorNote();
    ConstructorNoteDirs();
    SingleNote(n);
    assert "constructor" in InheritedNames && "constructor" !in UnfollowedNames;
    assert EscapeOf([]) == Lost;
    BuildContents([n]);
  }

  /**
   * A single note filed under a folder named `constructor` is shown by the
   * as-written builder nowhere in the explorer, while the corrected builder
   * shows it.
   */
  lemma ConstructorFolderHidesNote()
    ensures BuildAsWritten([ConstructorNote()]).Hidden?
    ensures Explorer.NotesOf(Explorer.Render(BuildAsWritten([ConstructorNote()]).tree)) == multiset{}
    ensures Explorer.NotesOf(Explorer.Render(Build([ConstructorNote()]))) == multiset{ConstructorNote()}
  {
    ConstructorTrees();
    assert Contents(Empty) == multiset{};
    Explorer.RenderContents(Empty);
    Explorer.RenderContents(Build([ConstructorNote()]));
  }

  lemma NameNoteDirs()
    ensures Paths.Dirs(NameNote().filepath) == ["constructor", "name"]
  {
    var segs := ["constructor", "name"] + ["a.md"];
    assert segs[1..][1..] == ["a.md"];
    assert Paths.Join(segs[1..]) == "name" + "/" + "a.md";
    assert Paths.Join(segs) == "constructor" + "/" + ("name" + "/" + "a.md");
    assert Paths.Join(segs) == NameNote().filepath;
    Paths.DirsOfJoin(["constructor", "name"], "a.md");
  }

  /**
   * A single note filed under `constructor/name` makes the as-written build
   * throw, so the dashboard shows its load error; the corrected builder
   * stores the note.
   */
  lemma ConstructorNameThrows()
    ensures BuildAsWritten([NameNote()]) == Throws
    ensures Contents(Build([NameNote()])) == multiset{NameNote()}
  {
    var n := NameNote();
    NameNoteDirs();
    SingleNote(n);
    assert "constructor" in InheritedNames && "constructor" !in UnfollowedNames;
    assert ["constructor", "name"][1..] == ["name"];
    assert EscapeOf(["name"]) == Crash;
    BuildContents([n]);
  }

  /**
   * After a primitive the walk is not followed: for `constructor/name/toString`
   * the script reads a method of the string and keeps going, so the model
   * claims no throw.
   */
  lemma PrimitiveThenMoreUnfollowed(n: Note)
    ensures InsertAsWritten(Empty, ["constructor", "name", "toString"], n) == Unfollowed
  {
    assert "constructor" in InheritedNames && "constructor" !in UnfollowedNames;
    assert ["constructor", "name", "toString"][1..] == ["name", "toString"];
    var rest := ["name", "toString"];
    assert rest[0] in PrimitiveNames + OpaqueNames;
    assert EscapeOf(rest) == Untracked;
  }

  /**
   * A primitive-valued name that is not the only segment after the inherited
   * name is not followed, even as the last segment: for
   * `constructor/toString/name` the script throws, and the model claims
   * nothing.
   */
  lemma LaterPrimitiveUnfollowed(n: Note)
    ensures InsertAsWritten(Empty, ["constructor", "toString", "name"], n) == Unfollowed
  {
    assert "constructor" in InheritedNames && "constructor" !in UnfollowedNames;
    assert ["constructor", "toString", "name"][1..] == ["toString", "name"];
    var rest := ["toString", "name"];
    assert rest[1] in PrimitiveNames + OpaqueNames;
    assert EscapeOf(rest) == Untracked;
  }
}

=== FILE: explorer.dfy ===
/**
 * The file explorer's listing (`createFileTreeHtml` and `displayFileExplorer`,
 * script.js). Each level lists its folders, sorted by name, and then its
 * notes, sorted by file name; every folder's own listing is nested inside it.
 * The DOM elements become a sequence of entries.
 */
module Explorer {
  import opened Notes
  import opened Text
  import opened FileTree

  /** One line of the listing: a folder with its nested listing, or a note. */
  datatype Entry = Folder(name: string, children: seq<Entry>) | File(note: Note)

  /** What the explorer column shows. */
  datatype View = NoFiles | Listing(entries: seq<Entry>)

  predicate StrictlySorted(s: seq<string>) {
    forall i, j :: 0 <= i < j < |s| ==> LexLt(s[i], s[j])
  }

  predicate SortedByFilename(ns: seq<Note>) {
    forall i, j :: 0 <= i < j < |ns| ==> LexLe(ns[i].filename, ns[j].filename)
  }

  /** Every note shown in a listing, at any depth, with multiplicity. */
  function NotesOf(es: seq<Entry>): multiset<Note>
    decreases es
  {
    if es == [] then multiset{} else NotesOfEntry(es[0]) + NotesOf(es[1..])
  }

  function NotesOfEntry(e: Entry): multiset<Note>
    decreases e
  {
    match e
    case Folder(_, children) => NotesOf(children)
    case File(n) => multiset{n}
  }

  // ---------------------------------------------------------------------------
  // Sorting folder names

  /** `m` belongs to `s` and no name of `s` comes before it. */
  predicate IsLeast(m: string, s: set<string>) {
    m in s && forall x :: x in s ==> LexLe(m, x)
  }

  lemma {:induction false} LeastExists(s: set<string>)
    requires s != {}
    ensures exists m :: IsLeast(m, s)
    decreases |s|
  {
    var y :| y in s;
    if s == {y} {
      LexLeReflexive(y);
      assert IsLeast(y, s);
    } else {
      var s' := s - {y};
      LeastExists(s');
      var m :| IsLeast(m, s');
      LexLeTotal(m, y);
      if LexLe(y, m) {
        forall x | x in s
          ensures LexLe(y, x)
        {
          if x == y {
            LexLeReflexive(y);
          } else {
            LexLeTransitive(y, m, x);
          }
        }
        assert IsLeast(y, s);
      } else {
        assert IsLeast(m, s);
      }
    }
  }

  lemma LeastUnique(s: set<string>, a: string, b: string)
    requires IsLeast(a, s) && IsLeast(b, s)
    ensures a == b
  {
    LexLeAntisymmetric(a, b);
  }

  /** The least name of a non-empty set of folder names. */
  function MinName(s: set<string>): (m: string)
    requires s != {}
    ensures IsLeast(m, s)
  {
    LeastExists(s);
    forall a, b | IsLeast(a, s) && IsLeast(b, s)
      ensures a == b
    {
      LeastUnique(s, a, b);
    }
    var m :| IsLeast(m, s);
    m
  }

  /**
   * `Object.keys(node).sort()` on the folder names: every name exactly once,
   * in strictly ascending order.
   */
  function SortedNames(s: set<string>): (r: seq<string>)
    ensures |r| == |s|
    ensures forall x :: x in r <==> x in s
    ensures StrictlySorted(r)
    decreases |s|
  {
    if s == {} then []
    else
      var m := MinName(s);
      [m] + SortedNames(s - {m})
  }

  // ---------------------------------------------------------------------------
  // Sorting notes by file name

  /** Puts `n` in front of the first note whose file name is not smaller. */
  function InsertByName(n: Note, sorted: seq<Note>): (r: seq<Note>)
    requires SortedByFilename(sorted)
    ensures SortedByFilename(r)
    ensures multiset(r) == multiset(sorted) + multiset{n}
    decreases |sorted|
  {
    if sorted == [] then [n]
    else if LexLe(n.filename, sorted[0].filename) then
      SortedCons(n, sorted);
      [n] + sorted
    else
      var rest := InsertByName(n, sorted[1..]);
      LexLeTotal(n.filename, sorted[0].filename);
      assert sorted == [sorted[0]] + sorted[1..];
      HeadBelowInsert(sorted[0], sorted[1..], n, rest);
      SortedCons(sorted[0], rest);
      [sorted[0]] + rest
  }

  /** A note no later than the head of a sorted list may go in front of it. */
  lemma SortedCons(h: Note, s: seq<Note>)
    requires SortedByFilename(s)
    requires s != [] ==> LexLe(h.filename, s[0].filename)
    ensures SortedByFilename([h] + s)
  {
    forall j | 0 <= j < |s|
      ensures LexLe(h.filename, s[j].filename)
    {
      if j > 0 {
        LexLeTransitive(h.filename, s[0].filename, s[j].filename);
      }
    }
  }

  lemma HeadBelowInsert(h: Note, tail: seq<Note>, n: Note, rest: seq<Note>)
    requires SortedByFilename([h] + tail)
    requires LexLe(h.filename, n.filename)
    requires multiset(rest) == multiset(tail) + multiset{n}
    ensures rest != [] ==> LexLe(h.filename, rest[0].filename)
  {
    if rest != [] {
      assert rest[0] in multiset(rest);
      if rest[0] != n {
        assert rest[0] in tail;
        var j :| 0 <= j < |tail| && tail[j] == rest[0];
        var whole := [h] + tail;
        assert whole[0] == h && whole[j + 1] == tail[j];
        assert LexLe(whole[0].filename, whole[j + 1].filename);
      }
    }
  }

  /** `files.sort((a, b) => a.filename.localeCompare(b.filename))`: the same notes, ordered by file name. */
  function SortByFilename(ns: seq<Note>): (r: seq<Note>)
    ensures SortedByFilename(r)
    ensures multiset(r) == multiset(ns)
    ensures |r| == |ns|
    decreases |ns|
  {
    if ns == [] then []
    else
      assert ns == [ns[0]] + ns[1..];
      InsertByName(ns[0], SortByFilename(ns[1..]))
  }

  // ---------------------------------------------------------------------------
  // Rendering

  function FileEntries(ns: seq<Note>): (r: seq<Entry>)
    ensures |r| == |ns|
    ensures forall i :: 0 <= i < |r| ==> r[i] == File(ns[i])
  {
    seq(|ns|, i requires 0 <= i < |ns| => File(ns[i]))
  }

  /** The folder entries for the sub-folders of `t` named in `names`, in that order. */
  function FolderEntries(t: Tree, names: seq<string>): (r: seq<Entry>)
    requires forall i :: 0 <= i < |names| ==> names[i] in t.folders
    ensures |r| == |names|
    ensures forall i :: 0 <= i < |r| ==> r[i].Folder? && r[i].name == names[i]
    decreases t, |names|
  {
    if names == [] then []
    else [Folder(names[0], Render(t.folders[names[0]]))] + FolderEntries(t, names[1..])
  }

  /**
   * The folder part of one level: exactly one entry per name of `names`,
   * in strictly ascending order of name.
   */
  predicate FoldersListed(es: seq<Entry>, names: set<string>) {
    && |es| == |names|
    && (forall i :: 0 <= i < |es| ==> es[i].Folder? && es[i].name in names)
    && (forall k :: k in names ==> exists i :: 0 <= i < |es| && es[i] == Folder(k, es[i].children))
    && (forall i, j :: 0 <= i < j < |es| ==> LexLt(es[i].name, es[j].name))
  }

  /** The file part of one level: exactly the notes `files`, ordered by file name. */
  predicate FilesListed(es: seq<Entry>, files: seq<Note>) {
    && |es| == |files|
    && (forall i :: 0 <= i < |es| ==> es[i].File?)
    && (forall i, j :: 0 <= i < j < |es| ==> LexLe(es[i].note.filename, es[j].note.filename))
    && NotesOf(es) == multiset(files)
  }

  lemma FolderEntriesListed(t: Tree, names: seq<string>, es: seq<Entry>)
    requires forall x :: x in names <==> x in t.folders
    requires |names| == |t.folders|
    requires StrictlySorted(names)
    requires |es| == |names|
    requires forall i :: 0 <= i < |es| ==> es[i].Folder? && es[i].name == names[i]
    ensures FoldersListed(es, t.folders.Keys)
  {
    forall k | k in t.folders.Keys
      ensures exists i :: 0 <= i < |es| && es[i] == Folder(k, es[i].children)
    {
      var i :| 0 <= i < |names| && names[i] == k;
      assert es[i] == Folder(k, es[i].children);
    }
  }

  /** Each folder entry carries the listing of the folder it names. */
  lemma {:induction false} FolderEntriesChildren(t: Tree, names: seq<string>)
    requires forall i :: 0 <= i < |names| ==> names[i] in t.folders
    ensures forall i :: 0 <= i < |names| ==> FolderEntries(t, names)[i].children == Render(t.folders[names[i]])
    decreases |names|
  {
    if names != [] {
      FolderEntriesChildren(t, names[1..]);
      var r := FolderEntries(t, names);
      assert r[1..] == FolderEntries(t, names[1..]);
      forall i | 1 <= i < |names|
        ensures r[i].children == Render(t.folders[names[i]])
      {
        assert r[i] == r[1..][i - 1] && names[i] == names[1..][i - 1];
      }
    }
  }

  lemma FileEntriesListed(sorted: seq<Note>, files: seq<Note>)
    requires SortedByFilename(sorted)
    requires multiset(sorted) == multiset(files)
    ensures FilesListed(FileEntries(sorted), files)
  {
    assert |sorted| == |multiset(sorted)| == |multiset(files)| == |files|;
    NotesOfFiles(sorted);
  }

  /**
   * `createFileTreeHtml(node)`: the folders of `node` by ascending name, then
   * its notes by ascending file name; each folder carries its own listing.
   * What the listing guarantees is stated by `RenderListing` and
   * `RenderContents`.
   */
  function Render(t: Tree): (r: seq<Entry>)
    ensures |r| == |t.folders| + |t.files|
    decreases t, |t.folders.Keys| + 1
  {
    FolderEntries(t, SortedNames(t.folders.Keys)) + FileEntries(SortByFilename(t.files))
  }

  /**
   * One level of the listing: every folder exactly once, in strictly
   * ascending order of name, then exactly the folder's own notes, in order of
   * file name, and never a note before a folder. Each folder entry holds
   * that folder's own listing, so the same holds at every depth.
   */
  lemma RenderListing(t: Tree)
    ensures |Render(t)| == |t.folders| + |t.files|
    ensures FoldersListed(Render(t)[..|t.folders|], t.folders.Keys)
    ensures FilesListed(Render(t)[|t.folders|..], t.files)
    ensures forall i :: 0 <= i < |t.folders| ==>
      Render(t)[i].Folder? && Render(t)[i].name in t.folders &&
      Render(t)[i].children == Render(t.folders[Render(t)[i].name])
  {
    RenderFolderPart(t);
    RenderFilePart(t);
    RenderChildren(t);
  }

  lemma RenderFolderPart(t: Tree)
    ensures FoldersListed(Render(t)[..|t.folders|], t.folders.Keys)
  {
    var names := SortedNames(t.folders.Keys);
    var folders := FolderEntries(t, names);
    FolderEntriesListed(t, names, folders);
    var r := folders + FileEntries(SortByFilename(t.files));
    assert r == Render(t);
    assert r[..|t.folders|] == folders;
  }

  lemma RenderFilePart(t: Tree)
    ensures FilesListed(Render(t)[|t.folders|..], t.files)
  {
    var names := SortedNames(t.folders.Keys);
    var sorted := SortByFilename(t.files);
    var files := FileEntries(sorted);
    FileEntriesListed(sorted, t.files);
    var r := FolderEntries(t, names) + files;
    assert r == Render(t);
    assert r[|t.folders|..] == files;
  }

  lemma RenderChildren(t: Tree)
    ensures forall i :: 0 <= i < |t.folders| ==>
      Render(t)[i].Folder? && Render(t)[i].name in t.folders &&
      Render(t)[i].children == Render(t.folders[Render(t)[i].name])
  {
    var names := SortedNames(t.folders.Keys);
    FolderEntriesChildren(t, names);
    var folders := FolderEntries(t, names);
    var r := Render(t);
    assert r == folders + FileEntries(SortByFilename(t.files));
    assert |folders| == |t.folders|;
    forall i | 0 <= i < |t.folders|
      ensures r[i].Folder? && r[i].name in t.folders && r[i].children == Render(t.folders[r[i].name])
    {
      assert r[i] == folders[i] && folders[i].name == names[i];
    }
  }

  /** `displayFileExplorer(notes)`: a placeholder for no notes, else the listing of their tree. */
  function ShowExplorer(notes: seq<Note>): (v: View)
    ensures v.NoFiles? <==> notes == []
    ensures v.Listing? ==> NotesOf(v.entries) == multiset(notes)
  {
    if |notes| == 0 then NoFiles
    else
      BuildContents(notes);
      RenderContents(Build(notes));
      Listing(Render(Build(notes)))
  }

  // ---------------------------------------------------------------------------
  // Every stored note is shown exactly once

  lemma {:induction false} NotesOfAppend(a: seq<Entry>, b: seq<Entry>)
    ensures NotesOf(a + b) == NotesOf(a) + NotesOf(b)
    decreases |a|
  {
    if a != [] {
      assert (a + b)[1..] == a[1..] + b;
      NotesOfAppend(a[1..], b);
    } else {
      assert a + b == b;
    }
  }

  lemma {:induction false} NotesOfFiles(ns: seq<Note>)
    ensures NotesOf(FileEntries(ns)) == multiset(ns)
    decreases |ns|
  {
    if ns != [] {
      NotesOfFiles(ns[1..]);
      assert FileEntries(ns) == [File(ns[0])] + FileEntries(ns[1..]);
      assert NotesOf(FileEntries(ns)) == multiset{ns[0]} + NotesOf(FileEntries(ns[1..]));
      assert ns == [ns[0]] + ns[1..];
    }
  }

  /** The names of a folder list, as a set. */
  function Members(names: seq<string>): set<string> {
    set k | k in names
  }

  /** The listing of a folder shows, at any depth, exactly the notes stored under it. */
  lemma {:induction false} RenderContents(t: Tree)
    ensures NotesOf(Render(t)) == Contents(t)
    decreases t, |t.folders.Keys| + 1
  {
    var names := SortedNames(t.folders.Keys);
    var folders := FolderEntries(t, names);
    RenderParts(t);
    assert NotesOf(Render(t)) == NotesOf(folders) + multiset(t.files);
    FolderEntriesContents(t, names);
    MembersAre(names, t.folders.Keys);
    assert NotesOf(folders) == ContentsIn(t, t.folders.Keys);
    assert Contents(t) == multiset(t.files) + ContentsIn(t, t.folders.Keys);
  }

  /** A level's notes are its folders' notes plus its own files. */
  lemma RenderParts(t: Tree)
    ensures NotesOf(Render(t))
         == NotesOf(FolderEntries(t, SortedNames(t.folders.Keys))) + multiset(t.files)
  {
    var sorted := SortByFilename(t.files);
    var folders := FolderEntries(t, SortedNames(t.folders.Keys));
    var files := FileEntries(sorted);
    assert Render(t) == folders + files;
    NotesOfAppend(folders, files);
    NotesOfFiles(sorted);
  }

  lemma {:induction false} FolderEntriesContents(t: Tree, names: seq<string>)
    requires forall i :: 0 <= i < |names| ==> names[i] in t.folders
    requires StrictlySorted(names)
    ensures Members(names) <= t.folders.Keys
    ensures NotesOf(FolderEntries(t, names)) == ContentsIn(t, Members(names))
    decreases t, |names|
  {
    if names != [] {
      RenderContents(t.folders[names[0]]);
      FolderEntriesContents(t, names[1..]);
      FolderEntriesCons(t, names);
      DropHeadName(names);
      ContentsInPick(t, Members(names), names[0]);
    }
  }

  lemma FolderEntriesCons(t: Tree, names: seq<string>)
    requires forall i :: 0 <= i < |names| ==> names[i] in t.folders
    requires names != []
    ensures NotesOf(FolderEntries(t, names))
         == NotesOf(Render(t.folders[names[0]])) + NotesOf(FolderEntries(t, names[1..]))
  {
    var es := FolderEntries(t, names);
    assert es[1..] == FolderEntries(t, names[1..]);
  }

  lemma DropHeadName(names: seq<string>)
    requires names != [] && StrictlySorted(names)
    ensures Members(names) - {names[0]} == Members(names[1..])
  {
    forall x | x in Members(names[1..])
      ensures x in Members(names) - {names[0]}
    {
      var j :| 1 <= j < |names| && names[j] == x;
      assert LexLt(names[0], names[j]);
    }
  }

  lemma MembersAre(names: seq<string>, keys: set<string>)
    requires forall x :: x in names <==> x in keys
    ensures Members(names) == keys
  {
  }
}

=== FILE: filetree.dfy ===
/**
 * The explorer's folder tree (`buildFileTree`, script.js). Each note's
 * `filepath` is split into segments; every segment but the last names a
 * folder, missing folders are created on the way down, and the whole note is
 * appended to the files of the folder reached.
 *
 * The script keeps a folder's files under the reserved property `_files` of
 * the same object that holds its sub-folders; here folders and files are two
 * separate fields, so no folder name can clash with the file list.
 */
module FileTree {
  import opened Wrappers
  import opened Notes
  import Paths

  /** One folder: its sub-folders by name, and the notes stored directly in it. */
  datatype Tree = Tree(folders: map<string, Tree>, files: seq<Note>)

  /** The object `{}` the builder starts from and creates for a missing folder. */
  const Empty := Tree(map[], [])

  /** The folder reached by following `path` down from `t`, if every segment exists. */
  function Lookup(t: Tree, path: seq<string>): Option<Tree>
    decreases |path|
  {
    if path == [] then Some(t)
    else if path[0] in t.folders then Lookup(t.folders[path[0]], path[1..])
    else None
  }

  /** The notes stored in the folder at `path`, or none when that folder does not exist. */
  function FilesAt(t: Tree, path: seq<string>): seq<Note> {
    match Lookup(t, path)
    case Some(node) => node.files
    case None => []
  }

  /**
   * Walks `dirs` down from `t`, creating each missing folder, and appends `n`
   * to the files of the folder reached (the body of the script's inner
   * `pathParts.forEach`).
   */
  function Insert(t: Tree, dirs: seq<string>, n: Note): (r: Tree)
    ensures dirs == [] ==> r.folders == t.folders && r.files == t.files + [n]
    ensures dirs != [] ==> r.files == t.files && r.folders.Keys == t.folders.Keys + {dirs[0]}
    ensures forall k :: k in t.folders && (dirs == [] || k != dirs[0]) ==> k in r.folders && r.folders[k] == t.folders[k]
    decreases |dirs|
  {
    if dirs == [] then Tree(t.folders, t.files + [n])
    else
      var child := if dirs[0] in t.folders then t.folders[dirs[0]] else Empty;
      Tree(t.folders[dirs[0] := Insert(child, dirs[1..], n)], t.files)
  }

  /** `buildFileTree(notes)`: inserts the notes one after another, in input order. */
  function Build(notes: seq<Note>): Tree
    decreases |notes|
  {
    if notes == [] then Empty
    else
      var k := |notes| - 1;
      Insert(Build(notes[..k]), Paths.Dirs(notes[k].filepath), notes[k])
  }

  /** Reference placement: the notes whose folder segments are exactly `path`, in input order. */
  function NotesIn(notes: seq<Note>, path: seq<string>): seq<Note> {
    if notes == [] then []
    else (if Paths.Dirs(notes[0].filepath) == path then [notes[0]] else []) + NotesIn(notes[1..], path)
  }

  /** True when `path` is the folder path of some note or a prefix of one. */
  predicate Reaches(notes: seq<Note>, path: seq<string>) {
    exists i :: 0 <= i < |notes| && path <= Paths.Dirs(notes[i].filepath)
  }

  /** Every note stored anywhere in the tree, with multiplicity. */
  ghost function Contents(t: Tree): multiset<Note>
    decreases t, |t.folders.Keys| + 1
  {
    multiset(t.files) + ContentsIn(t, t.folders.Keys)
  }

  /** The notes stored under the sub-folders of `t` named in `keys`. */
  ghost function ContentsIn(t: Tree, keys: set<string>): multiset<Note>
    requires keys <= t.folders.Keys
    decreases t, |keys|
  {
    if keys == {} then multiset{}
    else
      var k :| k in keys;
      Contents(t.folders[k]) + ContentsIn(t, keys - {k})
  }

  // ---------------------------------------------------------------------------
  // Placement

  lemma {:induction false} FilesAtEmpty(path: seq<string>)
    ensures FilesAt(Empty, path) == []
    ensures Lookup(Empty, path).Some? <==> path == []
  {
  }

  /** Inserting `n` at `dirs` appends it to that folder's files and changes no other folder's files. */
  lemma {:induction false} InsertFiles(t: Tree, dirs: seq<string>, n: Note, path: seq<string>)
    ensures FilesAt(Insert(t, dirs, n), path) == FilesAt(t, path) + (if path == dirs then [n] else [])
    decreases |dirs|
  {
    if dirs != [] && path != [] && path[0] == dirs[0] {
      var child := if dirs[0] in t.folders then t.folders[dirs[0]] else Empty;
      InsertFiles(child, dirs[1..], n, path[1..]);
      if dirs[0] !in t.folders {
        FilesAtEmpty(path[1..]);
      }
      assert path == dirs <==> path[1..] == dirs[1..] by {
        assert path == [path[0]] + path[1..];
        assert dirs == [dirs[0]] + dirs[1..];
      }
    }
  }

  /** Inserting creates exactly the folders along `dirs` that were missing. */
  lemma {:induction false} InsertFolders(t: Tree, dirs: seq<string>, n: Note, path: seq<string>)
    ensures Lookup(Insert(t, dirs, n), path).Some? <==> Lookup(t, path).Some? || path <= dirs
    decreases |dirs|
  {
    if dirs != [] && path != [] && path[0] == dirs[0] {
      var child := if dirs[0] in t.folders then t.folders[dirs[0]] else Empty;
      InsertFolders(child, dirs[1..], n, path[1..]);
      if dirs[0] !in t.folders {
        FilesAtEmpty(path[1..]);
      }
      assert path <= dirs <==> path[1..] <= dirs[1..] by {
        assert path == [path[0]] + path[1..];
        assert dirs == [dirs[0]] + dirs[1..];
      }
    }
  }

  lemma {:induction false} NotesInSnoc(notes: seq<Note>, n: Note, path: seq<string>)
    ensures NotesIn(notes + [n], path) == NotesIn(notes, path) + (if Paths.Dirs(n.filepath) == path then [n] else [])
    decreases |notes|
  {
    if notes != [] {
      assert (notes + [n])[1..] == notes[1..] + [n];
      NotesInSnoc(notes[1..], n, path);
    }
  }

  lemma NotesInLast(notes: seq<Note>, path: seq<string>)
    requires notes != []
    ensures var k := |notes| - 1;
      NotesIn(notes, path) == NotesIn(notes[..k], path) + (if Paths.Dirs(notes[k].filepath) == path then [notes[k]] else [])
  {
    var k := |notes| - 1;
    NotesInSnoc(notes[..k], notes[k], path);
    assert notes == notes[..k] + [notes[k]];
  }

  /**
   * Every folder's file list holds exactly the notes whose folder segments
   * lead to it, in the order they came in: placement, relative order and
   * "exactly one place per note" in one statement.
   */
  lemma {:induction false} BuildFiles(notes: seq<Note>, path: seq<string>)
    ensures FilesAt(Build(notes), path) == NotesIn(notes, path)
    decreases |notes|
  {
    if notes == [] {
      FilesAtEmpty(path);
    } else {
      var k := |notes| - 1;
      BuildFiles(notes[..k], path);
      InsertFiles(Build(notes[..k]), Paths.Dirs(notes[k].filepath), notes[k], path);
      NotesInLast(notes, path);
    }
  }

  /** The tree has a folder at `path` exactly when `path` is the root or leads towards some note. */
  lemma {:induction false} BuildFolders(notes: seq<Note>, path: seq<string>)
    ensures Lookup(Build(notes), path).Some? <==> path == [] || Reaches(notes, path)
    decreases |notes|
  {
    if notes == [] {
      FilesAtEmpty(path);
    } else {
      var k := |notes| - 1;
      BuildFolders(notes[..k], path);
      InsertFolders(Build(notes[..k]), Paths.Dirs(notes[k].filepath), notes[k], path);
      ReachesSnoc(notes, path);
    }
  }

  lemma ReachesSnoc(notes: seq<Note>, path: seq<string>)
    requires notes != []
    ensures Reaches(notes, path) <==>
      Reaches(notes[..|notes| - 1], path) || path <= Paths.Dirs(notes[|notes| - 1].filepath)
  {
    var k := |notes| - 1;
    if Reaches(notes[..k], path) {
      var i :| 0 <= i < k && path <= Paths.Dirs(notes[..k][i].filepath);
      assert notes[..k][i] == notes[i];
    }
    if Reaches(notes, path) && !Reaches(notes[..k], path) {
      var i :| 0 <= i < |notes| && path <= Paths.Dirs(notes[i].filepath);
      assert i == k;
    }
  }

  /** A note whose path has no separator is stored directly in the root's files. */
  lemma BuildRootFile(notes: seq<Note>, i: nat)
    requires i < |notes| && Paths.NoSep(notes[i].filepath)
    ensures notes[i] in FilesAt(Build(notes), [])
  {
    Paths.NoSepHasNoDirs(notes[i].filepath);
    BuildFiles(notes, []);
    NotesInHas(notes, i);
  }

  lemma {:induction false} NotesInHas(notes: seq<Note>, i: nat)
    requires i < |notes|
    ensures notes[i] in NotesIn(notes, Paths.Dirs(notes[i].filepath))
    decreases |notes|
  {
    if i > 0 {
      NotesInHas(notes[1..], i - 1);
    }
  }

  // ---------------------------------------------------------------------------
  // Counting

  /** Any key may be taken out of the sum first. */
  lemma {:induction false} ContentsInPick(t: Tree, keys: set<string>, x: string)
    requires keys <= t.folders.Keys && x in keys
    ensures ContentsIn(t, keys) == Contents(t.folders[x]) + ContentsIn(t, keys - {x})
    decreases |keys|
  {
    var k :| k in keys && ContentsIn(t, keys) == Contents(t.folders[k]) + ContentsIn(t, keys - {k});
    if k != x {
      ContentsInPick(t, keys - {k}, x);
      ContentsInPick(t, keys - {x}, k);
      assert keys - {k} - {x} == keys - {x} - {k};
    }
  }

  /** The sum only depends on the sub-folders it adds up. */
  lemma {:induction false} ContentsInSame(t: Tree, u: Tree, keys: set<string>)
    requires keys <= t.folders.Keys && keys <= u.folders.Keys
    requires forall k :: k in keys ==> t.folders[k] == u.folders[k]
    ensures ContentsIn(t, keys) == ContentsIn(u, keys)
    decreases |keys|
  {
    if keys != {} {
      var k :| k in keys && ContentsIn(t, keys) == Contents(t.folders[k]) + ContentsIn(t, keys - {k});
      ContentsInPick(u, keys, k);
      ContentsInSame(t, u, keys - {k});
    }
  }

  /** Appending to the root's files adds that note and leaves the sub-folders' contents alone. */
  lemma AppendContents(t: Tree, n: Note)
    ensures Contents(Tree(t.folders, t.files + [n])) == Contents(t) + multiset{n}
  {
    var r := Tree(t.folders, t.files + [n]);
    ContentsInSame(r, t, t.folders.Keys);
    assert multiset(t.files + [n]) == multiset(t.files) + multiset{n};
  }

  /** The contents of `t` with sub-folder `k` set to `c`: those of `c` plus the other sub-folders'. */
  lemma ReplaceContents(t: Tree, k: string, c: Tree)
    ensures Contents(Tree(t.folders[k := c], t.files))
         == multiset(t.files) + Contents(c) + ContentsIn(t, t.folders.Keys - {k})
  {
    var r := Tree(t.folders[k := c], t.files);
    ContentsInPick(r, r.folders.Keys, k);
    assert r.folders.Keys - {k} == t.folders.Keys - {k};
    ContentsInSame(r, t, t.folders.Keys - {k});
  }

  /** The contents of `t`, with sub-folder `k` (if any) counted separately. */
  lemma SplitContents(t: Tree, k: string)
    ensures k in t.folders ==>
      Contents(t) == multiset(t.files) + Contents(t.folders[k]) + ContentsIn(t, t.folders.Keys - {k})
    ensures k !in t.folders ==>
      Contents(t) == multiset(t.files) + ContentsIn(t, t.folders.Keys - {k})
  {
    if k in t.folders {
      ContentsInPick(t, t.folders.Keys, k);
    } else {
      assert t.folders.Keys - {k} == t.folders.Keys;
    }
  }

  /** Inserting a note adds exactly that note to the tree's contents. */
  lemma {:induction false} InsertContents(t: Tree, dirs: seq<string>, n: Note)
    ensures Contents(Insert(t, dirs, n)) == Contents(t) + multiset{n}
    decreases |dirs|
  {
    if dirs == [] {
      AppendContents(t, n);
    } else {
      var k := dirs[0];
      var child := if k in t.folders then t.folders[k] else Empty;
      InsertContents(child, dirs[1..], n);
      DescendContents(t, k, Insert(child, dirs[1..], n), n);
    }
  }

  /** Growing one sub-folder by a note grows the whole tree by that note. */
  lemma DescendContents(t: Tree, k: string, c: Tree, n: Note)
    requires Contents(c) == Contents(if k in t.folders then t.folders[k] else Empty) + multiset{n}
    ensures Contents(Tree(t.folders[k := c], t.files)) == Contents(t) + multiset{n}
  {
    ReplaceContents(t, k, c);
    SplitContents(t, k);
    if k !in t.folders {
      assert Contents(Empty) == multiset{};
    }
  }

  /** The tree holds every input note exactly as often as the input does, so as many notes in all. */
  lemma {:induction false} BuildContents(notes: seq<Note>)
    ensures Contents(Build(notes)) == multiset(notes)
    ensures |Contents(Build(notes))| == |notes|
    decreases |notes|
  {
    if notes == [] {
      assert Contents(Empty) == multiset{};
    } else {
      var k := |notes| - 1;
      BuildContents(notes[..k]);
      InsertContents(Build(notes[..k]), Paths.Dirs(notes[k].filepath), notes[k]);
      MultisetSnoc(notes);
    }
  }

  lemma MultisetSnoc(notes: seq<Note>)
    requires notes != []
    ensures multiset(notes) == multiset(notes[..|notes| - 1]) + multiset{notes[|notes| - 1]}
  {
    assert notes == notes[..|notes| - 1] + [notes[|notes| - 1]];
  }
}

=== FILE: notes.dfy ===
/** The note record returned by the notes API, as the dashboard script reads it. */
module Notes {

  /**
   * One shared note. Only the fields the script's logic reads are kept:
   * `filepath` places the note in the explorer, `filename` orders it,
   * `shared_by` and `timestamp` feed the daily counters.
   */
  datatype Note = Note(
    id: string,
    filename: string,
    filepath: string,
    sharedBy: string,
    timestamp: string
  )
}

=== FILE: paths.dfy ===
/**
 * Splitting a note's `filepath` into segments, as `filepath.split(/\/|\\/)`
 * does: both `/` and `\` separate, and empty segments are kept, so a path
 * with k separators always has k + 1 segments.
 */
module Paths {

  predicate IsSep(c: char) {
    c == '/' || c == '\\'
  }

  /** True when no character of `s` is a separator. */
  predicate NoSep(s: string) {
    forall i :: 0 <= i < |s| ==> !IsSep(s[i])
  }

  /** The number of separator characters in `s`. */
  function SepCount(s: string): nat {
    if s == [] then 0 else (if IsSep(s[0]) then 1 else 0) + SepCount(s[1..])
  }

  /** The segments of `s` between separators, in order. */
  function Split(s: string): (r: seq<string>)
    ensures |r| == SepCount(s) + 1
    ensures forall i :: 0 <= i < |r| ==> NoSep(r[i])
  {
    if s == [] then [""]
    else if IsSep(s[0]) then [""] + Split(s[1..])
    else
      var rest := Split(s[1..]);
      [[s[0]] + rest[0]] + rest[1..]
  }

  /** Rejoins segments with `/` between them. */
  function Join(segs: seq<string>): string
    requires |segs| >= 1
  {
    if |segs| == 1 then segs[0] else segs[0] + "/" + Join(segs[1..])
  }

  /** `s` with every `\` written as `/`. */
  function Normalize(s: string): (r: string)
    ensures |r| == |s|
    ensures forall i :: 0 <= i < |s| ==> r[i] == if s[i] == '\\' then '/' else s[i]
  {
    seq(|s|, i requires 0 <= i < |s| => if s[i] == '\\' then '/' else s[i])
  }

  /** The folder segments of a path: every segment except the last. */
  function Dirs(filepath: string): (r: seq<string>)
    ensures |r| == SepCount(filepath)
    ensures forall i :: 0 <= i < |r| ==> NoSep(r[i])
  {
    var parts := Split(filepath);
    parts[..|parts| - 1]
  }

  /** The last segment of a path, which the explorer never uses as a folder. */
  function Base(filepath: string): (r: string)
    ensures NoSep(r)
  {
    var parts := Split(filepath);
    parts[|parts| - 1]
  }

  /** Prefixing the first segment prefixes the joined path. */
  lemma JoinCons(c: char, segs: seq<string>)
    requires |segs| >= 1
    ensures Join([[c] + segs[0]] + segs[1..]) == [c] + Join(segs)
  {
    if |segs| > 1 {
      JoinConsLonger(c, segs, [[c] + segs[0]] + segs[1..]);
    }
  }

  lemma JoinConsLonger(c: char, segs: seq<string>, t: seq<string>)
    requires |segs| > 1 && t == [[c] + segs[0]] + segs[1..]
    ensures Join(t) == [c] + Join(segs)
  {
    assert t[0] == [c] + segs[0] && t[1..] == segs[1..];
  }

  /** Splitting and rejoining gives back the path, with `\` normalised to `/`. */
  lemma {:induction false} JoinSplit(s: string)
    ensures Join(Split(s)) == Normalize(s)
    decreases |s|
  {
    if s == [] {
    } else if IsSep(s[0]) {
      JoinSplit(s[1..]);
      assert Normalize(s) == "/" + Normalize(s[1..]);
      assert ([""] + Split(s[1..]))[1..] == Split(s[1..]);
    } else {
      JoinSplit(s[1..]);
      JoinCons(s[0], Split(s[1..]));
      assert Normalize(s) == [s[0]] + Normalize(s[1..]);
    }
  }

  /** A separator-free prefix is glued onto the first segment of the rest. */
  lemma {:induction false} SplitNoSepPrefix(x: string, rest: string)
    requires NoSep(x)
    ensures Split(x + rest) == [x + Split(rest)[0]] + Split(rest)[1..]
    decreases |x|
  {
    if x != [] {
      assert (x + rest)[1..] == x[1..] + rest;
      SplitNoSepPrefix(x[1..], rest);
      assert [x[0]] + (x[1..] + Split(rest)[0]) == x + Split(rest)[0];
    } else {
      var r := Split(rest);
      assert x + rest == rest;
      assert x + r[0] == r[0];
      assert r == [r[0]] + r[1..];
    }
  }

  /** Splitting the `/`-join of separator-free segments gives the segments back. */
  lemma {:induction false} SplitJoin(segs: seq<string>)
    requires |segs| >= 1
    requires forall i :: 0 <= i < |segs| ==> NoSep(segs[i])
    ensures Split(Join(segs)) == segs
    decreases |segs|
  {
    if |segs| == 1 {
      SplitNoSepPrefix(segs[0], "");
      assert segs[0] + "" == segs[0];
    } else {
      var rest := Join(segs[1..]);
      SplitJoin(segs[1..]);
      SplitNoSepPrefix(segs[0], "/" + rest);
      assert segs[0] + "/" + rest == segs[0] + ("/" + rest);
      assert ("/" + rest)[1..] == rest;
      var tail := Split("/" + rest);
      assert tail == [""] + segs[1..];
      assert tail[0] == "" && tail[1..] == segs[1..];
      assert segs[0] + tail[0] == segs[0];
      assert segs == [segs[0]] + segs[1..];
    }
  }

  /** A path without separators names no folder: the note sits at the root. */
  lemma NoSepHasNoDirs(filepath: string)
    requires NoSep(filepath)
    ensures Dirs(filepath) == []
    ensures Base(filepath) == filepath
  {
    SplitJoin([filepath]);
  }

  /** The folders of `dirs` joined with a file name are exactly `dirs`. */
  lemma DirsOfJoin(dirs: seq<string>, name: string)
    requires forall i :: 0 <= i < |dirs| ==> NoSep(dirs[i])
    requires NoSep(name)
    ensures Dirs(Join(dirs + [name])) == dirs
    ensures Base(Join(dirs + [name])) == name
  {
    SplitJoin(dirs + [name]);
  }

  /** Writing every `\` as `/` changes none of the segments: both characters separate alike. */
  lemma {:induction false} SplitNormalize(s: string)
    ensures Split(Normalize(s)) == Split(s)
    ensures Dirs(Normalize(s)) == Dirs(s)
    decreases |s|
  {
    if s != [] {
      var ns := Normalize(s);
      assert ns[1..] == Normalize(s[1..]);
      SplitNormalize(s[1..]);
    }
  }
}

=== FILE: recent.dfy ===
/** The "recent notes" column (`displayRecentNotes`, script.js). */
module Recent {
  import opened Notes

  /** How many notes the column shows at most (`notes.slice(0, 50)`). */
  const RecentLimit: nat := 50

  /** What the column shows: a placeholder, or the notes in the order given. */
  datatype RecentView = NoNotesYet | Shown(notes: seq<Note>)

  /** The first `RecentLimit` notes, or all of them when there are fewer. */
  function RecentNotes(notes: seq<Note>): (r: seq<Note>)
    ensures |r| == if |notes| < RecentLimit then |notes| else RecentLimit
    ensures r <= notes
  {
    if |notes| <= RecentLimit then notes else notes[..RecentLimit]
  }

  /** `displayRecentNotes(notes)`: the placeholder exactly when there is nothing to show. */
  function ShowRecent(notes: seq<Note>): (v: RecentView)
    ensures v.NoNotesYet? <==> notes == []
    ensures v.Shown? ==> 0 < |v.notes| <= RecentLimit && v.notes <= notes
    ensures v.Shown? ==> (|v.notes| < RecentLimit ==> v.notes == notes)
  {
    var recent := RecentNotes(notes);
    if |recent| == 0 then NoNotesYet else Shown(recent)
  }

  /** Notes beyond a full window never show: appending to a long list leaves the window alone. */
  lemma RecentIgnoresTail(notes: seq<Note>, more: seq<Note>)
    requires |notes| >= RecentLimit
    ensures RecentNotes(notes + more) == RecentNotes(notes)
  {
    assert (notes + more)[..RecentLimit] == notes[..RecentLimit];
  }
}

=== FILE: session.dfy ===
/**
 * The login gate (`checkLoginStatus` and `handleLogin`, script.js). A stored
 * session is honoured while it carries the shared key and is younger than the
 * session duration. The clock reading `now` (milliseconds since the epoch) is
 * a parameter; reading and writing the browser's storage is left to the caller.
 */
module Session {
  import opened Wrappers

  /** The shared access key. */
  const NexusKey := "245456"

  /** 180 days, in milliseconds. */
  const SessionDurationMs: int := 180 * 24 * 60 * 60 * 1000

  /** The stored session record: the key entered and when it was entered. */
  datatype SessionData = SessionData(key: string, timestamp: int)

  /** Which of the two top-level screens is visible. */
  datatype Screen = LoginScreen | Dashboard

  /** The outcome of submitting a key. */
  datatype LoginResult = Accepted(session: SessionData) | Rejected

  /** The session's key is the shared key and less than the duration has passed since it was stored. */
  predicate IsLive(s: SessionData, now: int) {
    s.key == NexusKey && now - s.timestamp < SessionDurationMs
  }

  /**
   * `checkLoginStatus()` on page load: switches to the dashboard when a live
   * session is stored, and otherwise leaves the screen as it was.
   */
  function CheckLoginStatus(screen: Screen, stored: Option<SessionData>, now: int): (r: Screen)
    ensures stored.Some? && stored.value.key == NexusKey && now < stored.value.timestamp + SessionDurationMs
      ==> r == Dashboard
    ensures !(stored.Some? && stored.value.key == NexusKey && now < stored.value.timestamp + SessionDurationMs)
      ==> r == screen
  {
    match stored
    case None => screen
    case Some(s) => if IsLive(s, now) then Dashboard else screen
  }

  /** `handleLogin()`: the shared key opens a session stamped with the current time; any other input is refused. */
  function HandleLogin(input: string, now: int): (r: LoginResult)
    ensures r.Accepted? <==> input == NexusKey
    ensures r.Accepted? ==> r.session.key == NexusKey && r.session.timestamp == now
  {
    if input == NexusKey then Accepted(SessionData(NexusKey, now)) else Rejected
  }

  /**
   * A session created by a successful login opens the dashboard on a later
   * page load exactly while fewer than 180 days have passed since the login.
   */
  lemma LoginThenReload(input: string, loginAt: int, now: int)
    requires HandleLogin(input, loginAt).Accepted?
    ensures CheckLoginStatus(LoginScreen, Some(HandleLogin(input, loginAt).session), now) == Dashboard
        <==> now - loginAt < 15_552_000_000
  {
  }

  /** A session stored under any other key never opens the dashboard. */
  lemma WrongKeyNeverOpens(s: SessionData, now: int)
    requires s.key != NexusKey
    ensures CheckLoginStatus(LoginScreen, Some(s), now) == LoginScreen
  {
  }
}

=== FILE: stats.dfy ===
/**
 * The per-contributor daily counters (`updateStats`, script.js). A note is
 * counted when the first ten characters of its timestamp equal today's date
 * string; its contributor name, lower-cased, decides which counter it goes to.
 * The caller supplies "today" (the script derives it from the clock).
 */
module Stats {
  import opened Notes
  import opened Text

  /** How many leading characters of a timestamp form its date (`slice(0, 10)`). */
  const DateLength: nat := 10

  const Rohan := "rohan"
  const Malhar := "malhar"

  /** The note's timestamp starts with `today`'s date. */
  predicate SharedOn(n: Note, today: string) {
    SliceTo(n.timestamp, DateLength) == today
  }

  /** The note's contributor is `who`, ignoring letter case. */
  predicate SharedBy(n: Note, who: string) {
    ToLower(n.sharedBy) == who
  }

  /** Reference count: the notes shared on `today` by `who`. */
  function CountBy(notes: seq<Note>, today: string, who: string): nat {
    if notes == [] then 0
    else (if SharedOn(notes[0], today) && SharedBy(notes[0], who) then 1 else 0) + CountBy(notes[1..], today, who)
  }

  /** Reference count: the notes shared on `today` by anyone. */
  function CountToday(notes: seq<Note>, today: string): nat {
    if notes == [] then 0
    else (if SharedOn(notes[0], today) then 1 else 0) + CountToday(notes[1..], today)
  }

  lemma {:induction false} CountBySnoc(notes: seq<Note>, n: Note, today: string, who: string)
    ensures CountBy(notes + [n], today, who)
         == CountBy(notes, today, who) + (if SharedOn(n, today) && SharedBy(n, who) then 1 else 0)
    decreases |notes|
  {
    if notes != [] {
      assert (notes + [n])[1..] == notes[1..] + [n];
      CountBySnoc(notes[1..], n, today, who);
    } else {
      assert (notes + [n])[1..] == [];
    }
  }

  /**
   * `updateStats(notes)`: walks the notes once; a note of today whose
   * contributor is "rohan" in any letter case bumps the rohan counter,
   * otherwise one whose contributor is "malhar" bumps the malhar counter.
   */
  method UpdateStats(notes: seq<Note>, today: string) returns (rohan: nat, malhar: nat)
    ensures rohan == CountBy(notes, today, Rohan)
    ensures malhar == CountBy(notes, today, Malhar)
    ensures rohan + malhar <= CountToday(notes, today) <= |notes|
  {
    rohan, malhar := 0, 0;
    var i := 0;
    while i < |notes|
      invariant i <= |notes|
      invariant rohan == CountBy(notes[..i], today, Rohan)
      invariant malhar == CountBy(notes[..i], today, Malhar)
    {
      assert notes[..i + 1] == notes[..i] + [notes[i]];
      CountBySnoc(notes[..i], notes[i], today, Rohan);
      CountBySnoc(notes[..i], notes[i], today, Malhar);
      var note := notes[i];
      if SliceTo(note.timestamp, DateLength) == today {
        if ToLower(note.sharedBy) == Rohan {
          rohan := rohan + 1;
        } else if ToLower(note.sharedBy) == Malhar {
          malhar := malhar + 1;
        }
      }
      i := i + 1;
    }
    assert notes[..i] == notes;
    CountsWithinToday(notes, today);
  }

  /**
   * No note is counted for both contributors, and only today's notes are
   * counted, so the two counters never add up to more than today's notes.
   */
  lemma {:induction false} CountsWithinToday(notes: seq<Note>, today: string)
    ensures CountBy(notes, today, Rohan) + CountBy(notes, today, Malhar) <= CountToday(notes, today) <= |notes|
    decreases |notes|
  {
    if notes != [] {
      CountsWithinToday(notes[1..], today);
    }
  }
}

=== FILE: text.dfy ===
/**
 * String helpers the dashboard script relies on: the lexicographic order used
 * for sorting folder names and file names, JavaScript's `slice(0, k)` on
 * strings, and lower-casing.
 */
module Text {

  /**
   * Lexicographic "less than or equal" on strings, comparing character by
   * character; a proper prefix comes before the longer string.
   */
  predicate LexLe(a: string, b: string)
    decreases |a|
  {
    |a| == 0 || (|b| > 0 && (a[0] < b[0] || (a[0] == b[0] && LexLe(a[1..], b[1..]))))
  }

  /** Strict lexicographic order. */
  predicate LexLt(a: string, b: string) {
    LexLe(a, b) && a != b
  }

  lemma {:induction false} LexLeReflexive(a: string)
    ensures LexLe(a, a)
    decreases |a|
  {
    if |a| > 0 {
      LexLeReflexive(a[1..]);
    }
  }

  lemma {:induction false} LexLeAntisymmetric(a: string, b: string)
    requires LexLe(a, b) && LexLe(b, a)
    ensures a == b
    decreases |a|
  {
    if |a| > 0 {
      LexLeAntisymmetric(a[1..], b[1..]);
      assert a == [a[0]] + a[1..];
      assert b == [b[0]] + b[1..];
    }
  }

  lemma {:induction false} LexLeTransitive(a: string, b: string, c: string)
    requires LexLe(a, b) && LexLe(b, c)
    ensures LexLe(a, c)
    decreases |a|
  {
    if |a| > 0 && a[0] == b[0] && b[0] == c[0] {
      LexLeTransitive(a[1..], b[1..], c[1..]);
    }
  }

  lemma {:induction false} LexLeTotal(a: string, b: string)
    ensures LexLe(a, b) || LexLe(b, a)
    decreases |a|
  {
    if |a| > 0 && |b| > 0 && a[0] == b[0] {
      LexLeTotal(a[1..], b[1..]);
    }
  }

  /**
   * JavaScript's `s.slice(0, k)` for a non-negative `k`: the first `k`
   * characters, or the whole string when it is shorter.
   */
  function SliceTo(s: string, k: nat): (r: string)
    ensures |r| == if |s| < k then |s| else k
    ensures r <= s
  {
    if |s| <= k then s else s[..k]
  }

  /** Lower-cases one ASCII letter and leaves every other character alone. */
  function LowerChar(c: char): (r: char)
    ensures 'A' <= c <= 'Z' ==> 'a' <= r <= 'z'
    ensures !('A' <= c <= 'Z') ==> r == c
  {
    if 'A' <= c <= 'Z' then (c as int - 'A' as int + 'a' as int) as char else c
  }

  /** `s.toLowerCase()` restricted to the ASCII letters. */
  function ToLower(s: string): (r: string)
    ensures |r| == |s|
    ensures forall i :: 0 <= i < |s| ==> r[i] == LowerChar(s[i])
  {
    seq(|s|, i requires 0 <= i < |s| => LowerChar(s[i]))
  }
}

=== FILE: wrappers.dfy ===
/** The optional-value datatype shared by the modules of this model. */
module Wrappers {

  /** A value that may be missing, in place of JavaScript's `undefined`. */
  datatype Option<+T> = None | Some(value: T)
}
